=== FILE: README.md ===
# To-do list page, modelled in Dafny

A model of the single script of a browser to-do list (`public/script.js`).
The page keeps an ordered list of tasks (`id` = the `Date.now()` reading when
the task was added, `text`, `completed`), mirrors it in local storage under the
key `"tasks"` after every change, and reacts to four gestures: a click on the
add button, a key pressed in the text field (Enter forwards to the add button),
a click on a task row (flips the task's completion) and a click on a row's
Delete button (removes the task, and stops the click from reaching the row).
Typing into the text field is a fifth event, `Type`: the browser edits the
field's value and no listener of the page runs.

The model separates the state changes from the DOM work around them:

- `strings.dfy`, module `Strings`: `String.prototype.trim` over the ECMAScript
  whitespace and line-terminator characters, computed by skipping whitespace
  from both ends, with an independent characterisation (`IsTrimOf`) that Trim
  is proved to be the unique solution of.
- `task_store.dfy`, module `TaskStore`: the `Task` datatype and the pure list
  transitions `Add`, `Toggle`, `Remove`, plus `Load`/`Save` for the stored value,
  with lemmas on length, order, frame and id uniqueness.
- `view_controller.dfy`, module `ViewController`: a `Page` (list, text field,
  stored value), the event handlers, the event dispatcher `Step`, and `Run`
  over a whole session, with the invariants every gesture keeps.

The clock (`Date.now()`) is a parameter: each add takes the reading it is given.

Two behaviours of the code are worth stating plainly:

- An unparsable stored value is not replaced by an empty list: line 8 calls
  `JSON.parse` unguarded, so it throws and the start-up handler stops before
  any listener is attached. `Start` returns `Aborted` in that case.
- `Toggle` takes a position in the list, because the row listener flips the
  task object it captured (line 63). Delete filters by id (line 72), so
  `Remove` drops every task carrying that id, not just one.

## Model

| member | source | states |
|---|---|---|
| Strings.SkipLeading | public/script.js:15 | the index reached is the first non-whitespace character at or after the start (or the end of the string), and everything skipped is whitespace |
| Strings.SkipTrailing | public/script.js:15 | the index reached is just after the last non-whitespace character above the lower bound (or the bound itself), and everything skipped is whitespace |
| Strings.Trim | public/script.js:15 | the result is an infix of the input, everything cut off on either side is whitespace, and the result has no whitespace at either end |
| Strings.TrimEmptyIffAllWhitespace | public/script.js:15-18 | the trimmed text is empty exactly when every input character is whitespace, the condition for the early return |
| Strings.TrimIsUnique | public/script.js:15 | any string that is a whitespace-padded, end-trimmed infix of the input equals Trim of it, so Trim is fixed by that description |
| Strings.TrimOfTrimmed | public/script.js:15 | trimming a string with no whitespace at either end returns it unchanged |
| Strings.TrimIdempotent | public/script.js:15 | trimming twice gives the same as trimming once |
| TaskStore.Add | public/script.js:15-26 | a blank input leaves the list unchanged; otherwise the list grows by one, earlier tasks are unchanged, and the new last task has the given id, the trimmed text (non-empty, trimmed) and is not completed |
| TaskStore.AddRejectsIffBlank | public/script.js:15-18 | add leaves the list unchanged if and only if the input is all whitespace |
| TaskStore.AddKeepsWellFormed | public/script.js:20-26 | with a clock reading no task uses, add keeps ids distinct and every text non-empty and trimmed |
| TaskStore.AddAllLength | public/script.js:14-26 | after a run of adds the length has grown by the number of non-blank inputs |
| TaskStore.AddAllKeepsWellFormed | public/script.js:21 | ids stay distinct over a run of adds whose clock readings strictly increase and exceed every existing id |
| TaskStore.SameMillisecondAddsShareId | public/script.js:21 | two accepted adds with the same clock reading produce two tasks with the same id |
| TaskStore.Toggle | public/script.js:63 | the targeted task's completed flag is flipped, its id and text kept, the length kept, and every other task unchanged |
| TaskStore.ToggleTwice | public/script.js:63 | toggling the same task twice gives back the original list |
| TaskStore.ToggleKeepsWellFormed | public/script.js:63 | toggling keeps ids distinct and texts valid |
| TaskStore.Remove | public/script.js:72 | the result holds exactly the tasks whose id differs, no task with the id remains, length never grows, an absent id changes nothing and a present one shortens the list |
| TaskStore.RemoveAppend | public/script.js:72 | removing from a concatenation is the concatenation of the removals, so relative order is preserved |
| TaskStore.RemoveSingleton | public/script.js:72 | a single task is kept exactly when its id differs |
| TaskStore.RemoveIdempotent | public/script.js:72 | removing the same id a second time changes nothing |
| TaskStore.RemoveNoOpIff | public/script.js:72 | remove leaves the list unchanged if and only if no task has the id |
| TaskStore.RemoveLength | public/script.js:72 | remove shortens the list by the number of tasks carrying the id |
| TaskStore.UniqueIdsCountAtMostOne | public/script.js:72 | with distinct ids an id is carried by one task if present and none otherwise |
| TaskStore.RemoveUniqueLength | public/script.js:72 | with distinct ids, removing a present id shortens the list by exactly one |
| TaskStore.ConsKeepsUniqueIds | public/script.js:72 | a task whose id no later task carries can be put in front without creating a duplicate id |
| TaskStore.RemoveKeepsUniqueIds | public/script.js:72 | remove keeps ids distinct |
| TaskStore.RemoveKeepsWellFormed | public/script.js:72 | remove keeps ids distinct and texts valid |
| TaskStore.Load | public/script.js:8 | no stored value loads as the empty list; loading fails exactly when the stored text is not JSON |
| TaskStore.Save | public/script.js:81-83 | loading what was saved gives back the same list |
| ViewController.Start | public/script.js:7-11 | start-up aborts exactly on unparsable storage and never stalls; a saved list becomes the page's list, no stored value starts an empty list, and in both cases storage mirrors the page's list and the field keeps its value |
| ViewController.OnAddClick | public/script.js:14-32 | a blank field leaves the page untouched, field included; otherwise one task is appended with the trimmed text, the field is cleared and storage mirrors the new list |
| ViewController.OnRowClick | public/script.js:61-67 | a click whose target is a button changes nothing; any other click flips the completed flag of exactly the row's task, keeping its id and text, keeps every other task and the field, and storage mirrors the new list |
| ViewController.OnDeleteClick | public/script.js:70-75 | the list becomes the id filter of the old list (same order), so the row task's id is gone, the list is shorter and the tasks left are exactly those with another id; the field is untouched and storage mirrors the new list |
| ViewController.Step | public/script.js:35-75 | dispatch: an add click and Enter run the add handler, other keys change nothing, typing only sets the field, a Delete-button click runs the delete listener and any other row click the row listener; every event keeps storage mirroring the list, a delete click only leaves tasks from before, and any other row click flips that row's flag |
| ViewController.EnterIsAddClick | public/script.js:35-39 | Enter in the text field has exactly the effect of a click on the add button |
| ViewController.DeleteClickNeverToggles | public/script.js:61-72 | a click on the Delete button leaves only unchanged tasks from before, and the row listener ignores a button target |
| ViewController.StepKeepsWellFormed | public/script.js:14-75 | every gesture keeps ids distinct and texts valid when the clock reading is not already an id |
| ViewController.StepIdsFromBefore | public/script.js:20-75 | after a gesture every id is an earlier id or the clock reading |
| ViewController.RunKeepsInvariants | public/script.js:8-83 | over a whole session (typing, any number of adds, toggles and deletes) with a strictly increasing clock, storage mirrors the list and ids stay distinct and texts valid |
| ViewController.RunFirst | public/script.js:35-75 | a session whose first event can happen is that event's step followed by the rest of the session |
| ViewController.AddStepBuyMilk | public/script.js:14-32 | the add button on a field holding "Buy milk" appends that task with the clock reading as id, clears the field and stores the list |
| ViewController.AddThenToggleScenario | public/script.js:14-67 | the session typing "Buy milk" into an empty page, clicking the add button and then the new row's label leaves one completed task, an empty field, and the same list in storage |
| ViewController.AddStepA | public/script.js:14-32 | the add button on a field holding "A" appends task "A", clears the field and stores the list |
| ViewController.EnterStepB | public/script.js:14-39 | Enter on a field holding " B " appends the trimmed task "B" after the existing one, clears the field and stores the list |
| ViewController.DeleteStepA | public/script.js:70-75 | the Delete button of the first of two rows leaves only the second task |
| ViewController.AddAddDeleteScenario | public/script.js:14-75 | the session typing "A", clicking add, typing " B ", pressing Enter and deleting the first row leaves only the task "B" |
| ViewController.DeleteButtonClickAsWritten | public/script.js:55-72 | when the task text yields no button markup a Delete-button click is exactly the delete listener (the id filter of line 72, so the row task's id is gone and every other task stays); when it yields one, the click changes nothing |
| ViewController.MarkupTextBlocksDelete | public/script.js:55-72 | a task with text `<button>x</button>` is still in the list after its Delete button is clicked |
| ViewController.DeleteButtonClickCorrected | public/script.js:55-72 | with the label filled as text, a Delete-button click always removes the row task's id, and is the click `Step` models |
| ViewController.AddClickAsWritten | public/script.js:14-32 | with markup labels, a non-blank add still appends and stores the trimmed task, but when that text swallows the Delete button the render throws before line 29 and the field keeps its text; for any other text it is the add handler `OnAddClick` |
| ViewController.ScriptTextKeepsField | public/script.js:26-29 | adding the text `<script>` stores the task but leaves `<script>` in the field, where the text-label handler clears it |
| ViewController.FirstSwallowing | public/script.js:11 | the position where rendering the saved list throws: the first task whose text swallows the Delete button, every earlier one rendering normally, or the length when none does |
| ViewController.StartAsWritten | public/script.js:7-14 | with markup labels, start-up still aborts exactly on unparsable storage, and it stalls exactly when some saved text swallows the Delete button, at the first such task, with the saved list in memory; with no such texts it is `Start` |
| ViewController.StoredScriptTextStallsStartup | public/script.js:8-14 | a saved task `<script>` stalls start-up at row 0, where start-up with a text label runs with the saved list |

## Findings

| source | as written | input that shows it | evidently intended | confidence | as-written member | corrected member |
|---|---|---|---|---|---|---|
| public/script.js:55-72 | the label is filled with `innerHTML`, so the task text is parsed as markup, and the delete listener goes to the row's first `<button>` | a task whose text is `<button>x</button>`: its Delete button is not the first button, has no listener, and the row listener ignores button clicks, so the task cannot be deleted through its Delete button (a click on the nested "x" button, which took the listener, still deletes it) | the Delete button removes its task whatever the text | not executed | ViewController.DeleteButtonClickAsWritten, ViewController.MarkupTextBlocksDelete | ViewController.DeleteButtonClickCorrected |
| public/script.js:55-70 | the label is filled with `innerHTML`, and the delete listener is attached to `li.querySelector("button")` without checking for `null` | a task text `<script>` (or `<textarea>`, `<!--`): the parsed text swallows the Delete button, so attaching the listener throws; the add handler has already stored the task but never clears the field (line 29), and every later start-up throws in line 11 before the add and Enter listeners are attached, with no way left in the page to remove the task | any trimmed text can be added, clears the field, and the saved list renders in full at start-up | not executed | ViewController.AddClickAsWritten, ViewController.ScriptTextKeepsField, ViewController.StartAsWritten, ViewController.StoredScriptTextStallsStartup | ViewController.OnAddClick, ViewController.Start |

## Left out

- Rendering: `renderTasks`, the `<li>`/`<span>`/`<button>` construction, the
  Tailwind class toggling, `appendChild` and `li.remove()`. Row `i` stands for
  the row of `tasks[i]`; the model does not track the rows separately.
- Rows that outlive their task: when two tasks share an id, deleting one removes
  both from the list but only one row from the page; the remaining row's
  listener then toggles an object no longer in the list. The model does not keep
  rows apart from the list, so it does not represent that state.
- `localStorage` and JSON: the stored value is the parsed list itself
  (`Saved`), nothing stored (`Missing`), or text `JSON.parse` rejects
  (`Unparsable`). Other JSON values written under the key by other code, and
  storage write failures (quota, disabled storage), are not modelled.
- `Date.now()` is a parameter of the add handler, not a clock.
- `console.log(tasks)` at line 31.
- Strings.Trim: works on Unicode scalar values, while JavaScript strings are
  UTF-16 code units; every character trim strips lies in the Basic
  Multilingual Plane, so the two agree except on unpaired surrogates, which
  the model cannot represent.
- Strings.IsWhitespace: the Unicode category Zs is taken as of current Unicode
  versions; older engines that still counted U+180E are not modelled.
- Markup in task texts: the model does not parse HTML. The number of
  `<button>` elements a text yields is a parameter of
  `DeleteButtonClickAsWritten`, and the set of texts that swallow the Delete
  button is a parameter of `AddClickAsWritten` and `StartAsWritten`; the rest
  of the model treats the label as plain text. Other effects of such texts (a
  nested button that deletes, script injection) are not modelled.
- ViewController.OnAddClick: promises a cleared field for every non-blank
  text, which holds for a text label only; with the markup label as written,
  a text that swallows the Delete button leaves the field as it was (line 29
  is never reached) and its row is not shown, so row positions and list
  positions part ways for the rest of the session. `AddClickAsWritten` states
  the first effect; the second is not modelled.
- ViewController.Start: never stalls, which holds for a text label only; with
  the markup label as written, a saved text that swallows the Delete button
  makes line 11 throw, so the add and Enter listeners are never attached.
  `StartAsWritten` states this; a session on such a stalled page (whose
  earlier rows still toggle and delete) is not modelled.
- Editing of the text field by the browser: only its result is modelled, as a
  `Type` event carrying the field's new value.
- ViewController.Run: a click on a row the page does not show cannot happen in
  the browser, and `Run` passes over such an event instead of modelling it.

=== FILE: strings.dfy ===
/**
 The whitespace trimming that the add-task handler applies to the text field
 (`todoInput.value.trim()`): ECMAScript's String.prototype.trim, which strips
 the WhiteSpace and LineTerminator characters (sections 12.2 and 12.3 of
 ECMA-262) from both ends of a string.
 */
module Strings {

  /** The characters String.prototype.trim removes: the WhiteSpace production
      (tab, vertical tab, form feed, space, no-break space, byte order mark and
      the Unicode category Zs) and the LineTerminator production (line feed,
      carriage return, line and paragraph separators). */
  predicate IsWhitespace(c: char) {
    || c == '\t' || c == '\n' || c == '\U{000B}' || c == '\U{000C}' || c == '\r'
    || c == ' ' || c == '\U{00A0}' || c == '\U{1680}'
    || ('\U{2000}' <= c <= '\U{200A}')
    || c == '\U{2028}' || c == '\U{2029}' || c == '\U{202F}' || c == '\U{205F}'
    || c == '\U{3000}' || c == '\U{FEFF}'
  }

  predicate AllWhitespace(s: string) {
    forall k | 0 <= k < |s| :: IsWhitespace(s[k])
  }

  /** Every character of `s` from index `lo` up to (not including) `hi` is
      whitespace. */
  predicate WhitespaceIn(s: string, lo: int, hi: int)
    requires 0 <= lo <= hi <= |s|
  {
    forall k | lo <= k < hi :: IsWhitespace(s[k])
  }

  /** Neither end of `s` is a whitespace character. */
  predicate IsTrimmed(s: string) {
    s == [] || (!IsWhitespace(s[0]) && !IsWhitespace(s[|s| - 1]))
  }

  /** `r` is what is left of `s` after cutting `i` whitespace characters from
      the front and only whitespace from the back, and `r` has no whitespace
      at either end. Exactly one `r` fits for each `s` (see TrimIsUnique). */
  ghost predicate IsTrimOf(s: string, r: string, i: nat) {
    && i + |r| <= |s|
    && r == s[i..i + |r|]
    && WhitespaceIn(s, 0, i)
    && WhitespaceIn(s, i + |r|, |s|)
    && IsTrimmed(r)
  }

  /** The index of the first non-whitespace character of `s` at or after
      `i`, or `|s|` if there is none. */
  function SkipLeading(s: string, i: nat): (j: nat)
    requires i <= |s|
    ensures i <= j <= |s|
    ensures WhitespaceIn(s, i, j)
    ensures j == |s| || !IsWhitespace(s[j])
    decreases |s| - i
  {
    if i < |s| && IsWhitespace(s[i]) then SkipLeading(s, i + 1) else i
  }

  /** The index just after the last non-whitespace character of `s` before
      `j` and not before `lo`, or `lo` if there is none. */
  function SkipTrailing(s: string, lo: nat, j: nat): (k: nat)
    requires lo <= j <= |s|
    ensures lo <= k <= j
    ensures WhitespaceIn(s, k, j)
    ensures k == lo || !IsWhitespace(s[k - 1])
    decreases j - lo
  {
    if lo < j && IsWhitespace(s[j - 1]) then SkipTrailing(s, lo, j - 1) else j
  }

  /** String.prototype.trim. */
  function Trim(s: string): (r: string)
    ensures IsTrimOf(s, r, SkipLeading(s, 0))
  {
    var i := SkipLeading(s, 0);
    s[i..SkipTrailing(s, i, |s|)]
  }

  /** Trimming yields the empty string exactly when every character is
      whitespace: the condition under which the add handler returns early. */
  lemma TrimEmptyIffAllWhitespace(s: string)
    ensures Trim(s) == [] <==> AllWhitespace(s)
  {
  }

  /** The trim relation has one solution, so Trim is pinned down by IsTrimOf
      independently of how SkipLeading and SkipTrailing compute it. */
  lemma TrimIsUnique(s: string, r: string, i: nat)
    requires IsTrimOf(s, r, i)
    ensures r == Trim(s)
  {
  }

  /** Trimming a trimmed string changes nothing; in particular trim is
      idempotent, so a stored task text is a fixed point of trim. */
  lemma TrimOfTrimmed(s: string)
    requires IsTrimmed(s)
    ensures Trim(s) == s
  {
  }

  lemma TrimIdempotent(s: string)
    ensures Trim(Trim(s)) == Trim(s)
  {
  }
}

=== FILE: task_store.dfy ===
/**
 The task list of the to-do page (public/script.js) as pure transitions over
 an immutable sequence of tasks: the add-task handler, the completion toggle,
 the delete filter, and the load/save pair that mirrors the list in the
 browser's local storage under the key "tasks".
 */
module TaskStore {
  import opened Strings

  /** One to-do item. `id` is the `Date.now()` reading taken when the item was
      added (milliseconds), `text` the trimmed input. */
  datatype Task = Task(id: int, text: string, completed: bool)

  /** The value stored under the "tasks" key, as `JSON.parse` sees it: nothing
      stored yet, the serialisation of a task list, or text that is not JSON. */
  datatype Stored = Missing | Saved(tasks: seq<Task>) | Unparsable

  /** The outcome of reading the stored list at page start. */
  datatype Loaded = Loaded(tasks: seq<Task>) | ParseError

  predicate HasId(tasks: seq<Task>, id: int) {
    exists k | 0 <= k < |tasks| :: tasks[k].id == id
  }

  predicate UniqueIds(tasks: seq<Task>) {
    forall i, j | 0 <= i < j < |tasks| :: tasks[i].id != tasks[j].id
  }

  /** Every id is smaller than `bound`: true of a list built from earlier
      clock readings than `bound`. */
  predicate IdsBelow(tasks: seq<Task>, bound: int) {
    forall k | 0 <= k < |tasks| :: tasks[k].id < bound
  }

  /** A text the add handler can produce: non-empty and already trimmed. */
  predicate ValidText(text: string) {
    text != [] && IsTrimmed(text)
  }

  /** The invariants the page keeps: distinct ids and valid texts. */
  predicate WellFormed(tasks: seq<Task>) {
    && UniqueIds(tasks)
    && forall k | 0 <= k < |tasks| :: ValidText(tasks[k].text)
  }

  /** The add-task handler on the task list: trim the input; if nothing is
      left the list is unchanged, otherwise a new incomplete task with id
      `now` and the trimmed text is appended. */
  function Add(tasks: seq<Task>, input: string, now: int): (r: seq<Task>)
    ensures AllWhitespace(input) ==> r == tasks
    ensures !AllWhitespace(input) ==>
      && |r| == |tasks| + 1
      && r[..|tasks|] == tasks
      && r[|tasks|].id == now
      && r[|tasks|].text == Trim(input)
      && ValidText(r[|tasks|].text)
      && !r[|tasks|].completed
  {
    TrimEmptyIffAllWhitespace(input);
    var text := Trim(input);
    if text == [] then tasks else tasks + [Task(now, text, false)]
  }

  /** The row click handler's flip of the clicked task's completion flag. The
      handler holds a reference to its task object, so the task is named by
      its position, which stays correct even when two tasks share an id. */
  function Toggle(tasks: seq<Task>, i: nat): (r: seq<Task>)
    requires i < |tasks|
    ensures |r| == |tasks|
    ensures r[i].completed == !tasks[i].completed
    ensures r[i].id == tasks[i].id && r[i].text == tasks[i].text
    ensures forall k | 0 <= k < |tasks| && k != i :: r[k] == tasks[k]
  {
    tasks[i := tasks[i].(completed := !tasks[i].completed)]
  }

  /** The delete handler's `tasks.filter((t) => t.id !== task.id)`: keeps the
      tasks whose id differs from `id`, in their order. */
  function Remove(tasks: seq<Task>, id: int): (r: seq<Task>)
    ensures |r| <= |tasks|
    ensures !HasId(r, id)
    ensures forall t :: t in r <==> t in tasks && t.id != id
    ensures !HasId(tasks, id) ==> r == tasks
    ensures HasId(tasks, id) ==> |r| < |tasks|
  {
    if tasks == [] then []
    else if tasks[0].id == id then Remove(tasks[1..], id)
    else [tasks[0]] + Remove(tasks[1..], id)
  }

  /** Line 8: `JSON.parse(localStorage.getItem("tasks")) || []`. A missing key
      reads as `null`, which `|| []` turns into the empty list; text that is
      not JSON makes `JSON.parse` throw. */
  function Load(stored: Stored): (r: Loaded)
    ensures stored.Missing? ==> r == Loaded([])
    ensures r.ParseError? <==> stored.Unparsable?
  {
    match stored
    case Missing => Loaded([])
    case Saved(tasks) => Loaded(tasks)
    case Unparsable => ParseError
  }

  /** `saveTasks`: overwrite the stored value with the serialised list. */
  function Save(tasks: seq<Task>): (r: Stored)
    ensures Load(r) == Loaded(tasks)
  {
    Saved(tasks)
  }

  // ---------------------------------------------------------------------
  // Properties of Add

  /** Add accepts exactly the inputs that are not all whitespace, and an
      accepted add always grows the list. */
  lemma AddRejectsIffBlank(tasks: seq<Task>, input: string, now: int)
    ensures Add(tasks, input, now) == tasks <==> AllWhitespace(input)
  {
  }

  /** An accepted add with a clock reading no task uses as an id keeps the
      list well formed. */
  lemma AddKeepsWellFormed(tasks: seq<Task>, input: string, now: int)
    requires WellFormed(tasks)
    requires !HasId(tasks, now)
    ensures WellFormed(Add(tasks, input, now))
  {
  }

  /** The add handler applied to `inputs` in turn, the k-th reading the clock
      as `clock[k]`. */
  function AddAll(tasks: seq<Task>, inputs: seq<string>, clock: seq<int>): seq<Task>
    requires |inputs| == |clock|
    decreases |inputs|
  {
    if inputs == [] then tasks
    else AddAll(Add(tasks, inputs[0], clock[0]), inputs[1..], clock[1..])
  }

  /** How many of `inputs` the add handler accepts. */
  function CountAccepted(inputs: seq<string>): nat {
    if inputs == [] then 0
    else (if AllWhitespace(inputs[0]) then 0 else 1) + CountAccepted(inputs[1..])
  }

  predicate StrictlyIncreasing(clock: seq<int>) {
    forall i, j | 0 <= i < j < |clock| :: clock[i] < clock[j]
  }

  /** After a run of adds the list has grown by the number of accepted
      inputs: blank inputs are dropped and every other one adds one task. */
  lemma {:induction false} AddAllLength(tasks: seq<Task>, inputs: seq<string>, clock: seq<int>)
    requires |inputs| == |clock|
    ensures |AddAll(tasks, inputs, clock)| == |tasks| + CountAccepted(inputs)
    decreases |inputs|
  {
    if inputs != [] {
      AddAllLength(Add(tasks, inputs[0], clock[0]), inputs[1..], clock[1..]);
    }
  }

  /** Ids stay pairwise distinct over a run of adds whose clock readings
      strictly increase and are later than every existing id. With readings
      from the same millisecond, see SameMillisecondAddsShareId. */
  lemma {:induction false} AddAllKeepsWellFormed(tasks: seq<Task>, inputs: seq<string>, clock: seq<int>)
    requires |inputs| == |clock|
    requires WellFormed(tasks)
    requires StrictlyIncreasing(clock)
    requires |clock| > 0 ==> IdsBelow(tasks, clock[0])
    ensures WellFormed(AddAll(tasks, inputs, clock))
    decreases |inputs|
  {
    if inputs != [] {
      var next := Add(tasks, inputs[0], clock[0]);
      AddKeepsWellFormed(tasks, inputs[0], clock[0]);
      if |clock| > 1 {
        assert IdsBelow(next, clock[1]) by {
          forall k | 0 <= k < |next|
            ensures next[k].id < clock[1]
          {
            if k < |tasks| {
              assert next[k] == tasks[k];
            }
          }
        }
      }
      AddAllKeepsWellFormed(next, inputs[1..], clock[1..]);
    }
  }

  /** Two accepted adds in the same millisecond give two tasks the same id,
      the collision the page accepts as a risk. */
  lemma SameMillisecondAddsShareId(tasks: seq<Task>, a: string, b: string, now: int)
    requires !AllWhitespace(a) && !AllWhitespace(b)
    ensures !UniqueIds(Add(Add(tasks, a, now), b, now))
  {
  }

  // ---------------------------------------------------------------------
  // Properties of Toggle

  /** Toggling the same task twice restores the list. */
  lemma ToggleTwice(tasks: seq<Task>, i: nat)
    requires i < |tasks|
    ensures Toggle(Toggle(tasks, i), i) == tasks
  {
  }

  /** Toggling touches neither ids nor texts, so the list stays well formed. */
  lemma ToggleKeepsWellFormed(tasks: seq<Task>, i: nat)
    requires i < |tasks|
    requires WellFormed(tasks)
    ensures WellFormed(Toggle(tasks, i))
  {
  }

  // ---------------------------------------------------------------------
  // Properties of Remove

  /** Remove works piecewise: the survivors of a concatenation are the
      survivors of each part, in order. With the two one-task cases this pins
      Remove down as the order-preserving filter. */
  lemma {:induction false} RemoveAppend(a: seq<Task>, b: seq<Task>, id: int)
    ensures Remove(a + b, id) == Remove(a, id) + Remove(b, id)
    decreases |a|
  {
    if a == [] {
      assert a + b == b;
    } else {
      assert (a + b)[0] == a[0];
      assert (a + b)[1..] == a[1..] + b;
      RemoveAppend(a[1..], b, id);
    }
  }

  /** A one-task list keeps its task exactly when the id differs. */
  lemma RemoveSingleton(t: Task, id: int)
    ensures Remove([t], id) == if t.id == id then [] else [t]
  {
  }

  /** Deleting twice is the same as deleting once. */
  lemma RemoveIdempotent(tasks: seq<Task>, id: int)
    ensures Remove(Remove(tasks, id), id) == Remove(tasks, id)
  {
  }

  /** Delete leaves the list as it was exactly when no task has the id. */
  lemma RemoveNoOpIff(tasks: seq<Task>, id: int)
    ensures Remove(tasks, id) == tasks <==> !HasId(tasks, id)
  {
  }

  /** The number of tasks carrying `id`. */
  function CountId(tasks: seq<Task>, id: int): nat {
    if tasks == [] then 0
    else (if tasks[0].id == id then 1 else 0) + CountId(tasks[1..], id)
  }

  /** Delete removes one task per occurrence of the id. */
  lemma {:induction false} RemoveLength(tasks: seq<Task>, id: int)
    ensures |Remove(tasks, id)| == |tasks| - CountId(tasks, id)
  {
    if tasks != [] {
      RemoveLength(tasks[1..], id);
    }
  }

  /** In a list with distinct ids an id occurs at most once, so delete of a
      present id removes exactly one task. */
  lemma {:induction false} UniqueIdsCountAtMostOne(tasks: seq<Task>, id: int)
    requires UniqueIds(tasks)
    ensures CountId(tasks, id) == if HasId(tasks, id) then 1 else 0
  {
    if tasks != [] {
      UniqueIdsCountAtMostOne(tasks[1..], id);
      if tasks[0].id == id {
        assert !HasId(tasks[1..], id);
      } else if HasId(tasks, id) {
        var k :| 0 <= k < |tasks| && tasks[k].id == id;
        assert tasks[1..][k - 1].id == id;
      }
    }
  }

  lemma RemoveUniqueLength(tasks: seq<Task>, id: int)
    requires UniqueIds(tasks)
    requires HasId(tasks, id)
    ensures |Remove(tasks, id)| == |tasks| - 1
  {
  }

  /** Putting a task with a fresh id in front keeps ids distinct. */
  lemma ConsKeepsUniqueIds(t: Task, rest: seq<Task>)
    requires UniqueIds(rest)
    requires forall k | 0 <= k < |rest| :: rest[k].id != t.id
    ensures UniqueIds([t] + rest)
  {
  }

  /** Delete keeps ids distinct: it only drops tasks. */
  lemma {:induction false} RemoveKeepsUniqueIds(tasks: seq<Task>, id: int)
    requires UniqueIds(tasks)
    ensures UniqueIds(Remove(tasks, id))
  {
    if tasks != [] {
      var tail := tasks[1..];
      RemoveKeepsUniqueIds(tail, id);
      if tasks[0].id != id {
        var rest := Remove(tail, id);
        forall k | 0 <= k < |rest|
          ensures rest[k].id != tasks[0].id
        {
          assert rest[k] in tail;
          var m :| 0 <= m < |tail| && tail[m] == rest[k];
          assert tasks[m + 1] == rest[k];
        }
        ConsKeepsUniqueIds(tasks[0], rest);
      }
    }
  }

  /** Delete keeps the list well formed. */
  lemma RemoveKeepsWellFormed(tasks: seq<Task>, id: int)
    requires WellFormed(tasks)
    ensures WellFormed(Remove(tasks, id))
  {
    RemoveKeepsUniqueIds(tasks, id);
    var r := Remove(tasks, id);
    forall k | 0 <= k < |r|
      ensures ValidText(r[k].text)
    {
      assert r[k] in tasks;
    }
  }
}

=== FILE: view_controller.dfy ===
/**
 The event handlers of the to-do page (public/script.js) as transitions of a
 page state: the add button's click handler, the text field's keypress
 handler, and the two listeners every rendered row carries (a click on the
 row toggles its task, a click on its Delete button removes it). The DOM
 rows themselves are not modelled; row `i` stands for the row rendered for
 `tasks[i]`.
 */
module ViewController {
  import opened Strings
  import opened TaskStore

  /** What the handlers read and write: the in-memory list, the text field's
      value, and the value stored under the "tasks" key. */
  datatype Page = Page(tasks: seq<Task>, input: string, stored: Stored)

  /** The page at start-up: running; stopped because reading the stored list
      threw, in which case no handler was ever attached; or stalled because
      rendering the saved list threw at row `shown`, in which case the rows
      before it are shown with their listeners, no later row is shown, and
      neither the add button's nor the text field's listener was attached.
      Only a label that parses task texts as markup can stall (see
      StartAsWritten). */
  datatype Startup = Running(page: Page) | Aborted | Stalled(page: Page, shown: nat)

  /** The element of a row a click lands on: the text span, the row itself,
      or the Delete button. */
  datatype Target = Label | RowBody | DeleteButton

  /** A user gesture. A key typed into the text field is two things: the
      page's keypress listener runs (`KeyPress`), and the browser's default
      action edits the field, which no listener of the page sees (`Type`,
      carrying the field's new value). */
  datatype Event =
    | AddClick                            // click on the add-task button
    | KeyPress(key: string)               // keypress listener of the text field
    | Type(text: string)                  // the field's value becomes `text`
    | RowClick(row: nat, target: Target)  // click inside the row-th task row

  /** `e.target.tagName` for a click on `t`. */
  function TagName(t: Target): string {
    match t
    case Label => "SPAN"
    case RowBody => "LI"
    case DeleteButton => "BUTTON"
  }

  /** The stored value is the serialisation of the in-memory list. */
  predicate Consistent(p: Page) {
    Load(p.stored) == Loaded(p.tasks)
  }

  /** A gesture the page can receive: a click lands on a row that is shown. */
  predicate Enabled(p: Page, e: Event) {
    e.RowClick? ==> e.row < |p.tasks|
  }

  /** The DOMContentLoaded handler: load the stored list, or stop if that
      throws. The text field starts out holding `input`. */
  function Start(stored: Stored, input: string): (r: Startup)
    ensures r.Aborted? <==> stored.Unparsable?
    ensures !r.Stalled?
    ensures r.Running? ==> Consistent(r.page) && r.page.input == input
    ensures stored.Missing? ==> r == Running(Page([], input, stored))
    ensures stored.Saved? ==> r == Running(Page(stored.tasks, input, stored))
  {
    match Load(stored)
    case ParseError => Aborted
    case Loaded(tasks) => Running(Page(tasks, input, stored))
  }

  /** The add button's click handler: a blank field changes nothing (the
      field is not cleared either); otherwise the task is appended, the list
      saved and the field cleared. */
  function OnAddClick(p: Page, now: int): (q: Page)
    ensures AllWhitespace(p.input) ==> q == p
    ensures !AllWhitespace(p.input) ==>
      && |q.tasks| == |p.tasks| + 1
      && q.tasks[..|p.tasks|] == p.tasks
      && q.tasks[|p.tasks|] == Task(now, Trim(p.input), false)
      && q.input == []
      && Consistent(q)
  {
    TrimEmptyIffAllWhitespace(p.input);
    var text := Trim(p.input);
    if text == [] then p
    else
      var tasks := Add(p.tasks, p.input, now);
      Page(tasks, [], Save(tasks))
  }

  /** The row's click listener: ignored when the click landed on a button,
      otherwise it flips the task's completion flag and saves the list. */
  function OnRowClick(p: Page, i: nat, target: Target): (q: Page)
    requires i < |p.tasks|
    ensures TagName(target) == "BUTTON" ==> q == p
    ensures TagName(target) != "BUTTON" ==>
      && |q.tasks| == |p.tasks|
      && q.tasks[i].completed == !p.tasks[i].completed
      && q.tasks[i].id == p.tasks[i].id
      && q.tasks[i].text == p.tasks[i].text
      && (forall k | 0 <= k < |p.tasks| && k != i :: q.tasks[k] == p.tasks[k])
      && q.input == p.input
      && Consistent(q)
  {
    if TagName(target) == "BUTTON" then p
    else
      var tasks := Toggle(p.tasks, i);
      p.(tasks := tasks, stored := Save(tasks))
  }

  /** The Delete button's click listener: removes every task with the row
      task's id and saves the list. It stops the event's propagation, so the
      row's own listener never sees this click. */
  function OnDeleteClick(p: Page, i: nat): (q: Page)
    requires i < |p.tasks|
    ensures q.tasks == Remove(p.tasks, p.tasks[i].id)
    ensures !HasId(q.tasks, p.tasks[i].id)
    ensures |q.tasks| < |p.tasks|
    ensures forall t :: t in q.tasks <==> t in p.tasks && t.id != p.tasks[i].id
    ensures q.input == p.input
    ensures Consistent(q)
  {
    var tasks := Remove(p.tasks, p.tasks[i].id);
    p.(tasks := tasks, stored := Save(tasks))
  }

  /** One gesture, with `now` the clock reading an add would take. A click on
      the Delete button reaches the button's listener first, which stops the
      event; any other click in a row bubbles to the row's listener. The
      text field's keypress listener clicks the add button on Enter and does
      nothing for any other key (the character it types arrives as a `Type`
      event). */
  function Step(p: Page, e: Event, now: int): (q: Page)
    requires Enabled(p, e)
    ensures Consistent(p) ==> Consistent(q)
    ensures e == AddClick ==> q == OnAddClick(p, now)
    ensures e == KeyPress("Enter") ==> q == OnAddClick(p, now)
    ensures e.KeyPress? && e.key != "Enter" ==> q == p
    ensures e.Type? ==> q == p.(input := e.text)
    ensures e.RowClick? && e.target == DeleteButton ==> q == OnDeleteClick(p, e.row)
    ensures e.RowClick? && e.target == DeleteButton ==>
      forall t | t in q.tasks :: t in p.tasks
    ensures e.RowClick? && e.target != DeleteButton ==> q == OnRowClick(p, e.row, e.target)
    ensures e.RowClick? && e.target != DeleteButton ==>
      |q.tasks| == |p.tasks| && q.tasks[e.row].completed != p.tasks[e.row].completed
  {
    match e
    case AddClick => OnAddClick(p, now)
    case KeyPress(key) => if key == "Enter" then OnAddClick(p, now) else p
    case Type(text) => p.(input := text)
    case RowClick(i, target) =>
      if target == DeleteButton then OnDeleteClick(p, i) else OnRowClick(p, i, target)
  }

  /** Enter in the text field has exactly the effect of clicking the add
      button. */
  lemma EnterIsAddClick(p: Page, now: int)
    ensures Step(p, KeyPress("Enter"), now) == Step(p, AddClick, now)
  {
  }

  /** A click on a row's Delete button never changes the completion flag of
      any task: every task left is one of the tasks before, unchanged, and the
      row listener's button guard would make it a no-op anyway. */
  lemma DeleteClickNeverToggles(p: Page, i: nat, now: int)
    requires i < |p.tasks|
    ensures forall t | t in Step(p, RowClick(i, DeleteButton), now).tasks :: t in p.tasks
    ensures OnRowClick(p, i, DeleteButton) == p
  {
  }

  /** Every gesture keeps the list well formed, provided an add's clock
      reading is not already an id. */
  lemma StepKeepsWellFormed(p: Page, e: Event, now: int)
    requires Enabled(p, e)
    requires WellFormed(p.tasks)
    requires !HasId(p.tasks, now)
    ensures WellFormed(Step(p, e, now).tasks)
  {
    match e
    case AddClick =>
      AddKeepsWellFormed(p.tasks, p.input, now);
    case KeyPress(key) =>
      AddKeepsWellFormed(p.tasks, p.input, now);
    case Type(text) =>
    case RowClick(i, target) =>
      if target == DeleteButton {
        RemoveKeepsWellFormed(p.tasks, p.tasks[i].id);
      } else {
        ToggleKeepsWellFormed(p.tasks, i);
      }
  }

  /** Every id after a gesture is an id from before or the clock reading. */
  lemma StepIdsFromBefore(p: Page, e: Event, now: int, bound: int)
    requires Enabled(p, e)
    requires IdsBelow(p.tasks, bound)
    requires now < bound
    ensures IdsBelow(Step(p, e, now).tasks, bound)
  {
  }

  /** A session: the gestures `events` in turn, the k-th add reading the
      clock as `clock[k]`. A click on a row the page does not show cannot
      happen in the browser, and is passed over. */
  function Run(p: Page, events: seq<Event>, clock: seq<int>): Page
    requires |events| == |clock|
    decreases |events|
  {
    if events == [] then p
    else
      var next := if Enabled(p, events[0]) then Step(p, events[0], clock[0]) else p;
      Run(next, events[1..], clock[1..])
  }

  /** Over a whole session the stored value mirrors the list, and the list
      stays well formed as long as the clock strictly increases and starts
      after every loaded id. */
  lemma {:induction false} RunKeepsInvariants(p: Page, events: seq<Event>, clock: seq<int>)
    requires |events| == |clock|
    requires Consistent(p) && WellFormed(p.tasks)
    requires StrictlyIncreasing(clock)
    requires |clock| > 0 ==> IdsBelow(p.tasks, clock[0])
    ensures Consistent(Run(p, events, clock)) && WellFormed(Run(p, events, clock).tasks)
    decreases |events|
  {
    if events != [] {
      var next := p;
      if Enabled(p, events[0]) {
        next := Step(p, events[0], clock[0]);
        StepKeepsWellFormed(p, events[0], clock[0]);
        if |clock| > 1 {
          StepIdsFromBefore(p, events[0], clock[0], clock[1]);
        }
      }
      RunKeepsInvariants(next, events[1..], clock[1..]);
    }
  }

  /** A session runs its first gesture, then the rest. */
  lemma RunFirst(p: Page, events: seq<Event>, clock: seq<int>)
    requires |events| == |clock| && events != []
    requires Enabled(p, events[0])
    ensures Run(p, events, clock) == Run(Step(p, events[0], clock[0]), events[1..], clock[1..])
  {
  }

  /** The add button on a field holding "Buy milk" adds that task. */
  lemma AddStepBuyMilk()
    ensures Step(Page([], "Buy milk", Missing), AddClick, 1000)
      == Page([Task(1000, "Buy milk", false)], [], Saved([Task(1000, "Buy milk", false)]))
  {
    assert !IsWhitespace("Buy milk"[0]);
    TrimOfTrimmed("Buy milk");
  }

  /** Typing "Buy milk" into the empty page's field, clicking the add button
      and then the new row: one task, completed, the field cleared, and
      storage holding the same list. The session is passed in and pinned by
      the preconditions rather than written into the ensures, which keeps the
      verifier from unfolding `Run` on the literal all at once. */
  lemma AddThenToggleScenario(events: seq<Event>, clock: seq<int>)
    requires events == [Type("Buy milk"), AddClick, RowClick(0, Label)]
    requires clock == [0, 1000, 2000]
    ensures
      var q := Run(Page([], [], Missing), events, clock);
      && q.tasks == [Task(1000, "Buy milk", true)]
      && q.input == []
      && q.stored == Saved(q.tasks)
  {
    var p2 := Page([Task(1000, "Buy milk", false)], [], Saved([Task(1000, "Buy milk", false)]));
    RunFirst(Page([], [], Missing), events, clock);
    RunFirst(Page([], "Buy milk", Missing), events[1..], clock[1..]);
    AddStepBuyMilk();
    RunFirst(p2, events[2..], clock[2..]);
    assert events[3..] == [];
  }

  /** The add button on a field holding "A" adds the task "A". */
  lemma AddStepA()
    ensures Step(Page([], "A", Missing), AddClick, 1)
      == Page([Task(1, "A", false)], [], Saved([Task(1, "A", false)]))
  {
    assert !IsWhitespace("A"[0]);
    TrimOfTrimmed("A");
  }

  /** Enter on a field holding " B " adds the task "B" after "A". */
  lemma EnterStepB()
    ensures
      var a := Task(1, "A", false);
      var b := Task(3, "B", false);
      Step(Page([a], " B ", Saved([a])), KeyPress("Enter"), 3) == Page([a, b], [], Saved([a, b]))
  {
    assert !IsWhitespace(" B "[1]);
    assert IsTrimOf(" B ", "B", 1);
    TrimIsUnique(" B ", "B", 1);
  }

  /** Deleting the first row of ["A", "B"] leaves ["B"]. */
  lemma DeleteStepA()
    ensures
      var a := Task(1, "A", false);
      var b := Task(3, "B", false);
      Step(Page([a, b], [], Saved([a, b])), RowClick(0, DeleteButton), 4).tasks == [b]
  {
    var a := Task(1, "A", false);
    var b := Task(3, "B", false);
    assert [a, b] == [a] + [b];
    RemoveAppend([a], [b], 1);
    RemoveSingleton(a, 1);
    RemoveSingleton(b, 1);
  }

  /** Two adds in one session, "A" by the button and " B " by Enter, then a
      click on the first row's Delete button: only the task "B" is left. As
      above, the session is pinned by the preconditions. */
  lemma AddAddDeleteScenario(events: seq<Event>, clock: seq<int>)
    requires events == [Type("A"), AddClick, Type(" B "), KeyPress("Enter"), RowClick(0, DeleteButton)]
    requires clock == [0, 1, 2, 3, 4]
    ensures Run(Page([], [], Missing), events, clock).tasks == [Task(3, "B", false)]
  {
    var a := Task(1, "A", false);
    var b := Task(3, "B", false);
    var p1 := Page([], "A", Missing);
    var p2 := Page([a], [], Saved([a]));
    var p4 := Page([a, b], [], Saved([a, b]));
    RunFirst(Page([], [], Missing), events, clock);
    RunFirst(p1, events[1..], clock[1..]);
    AddStepA();
    RunFirst(p2, events[2..], clock[2..]);
    RunFirst(p2.(input := " B "), events[3..], clock[3..]);
    EnterStepB();
    RunFirst(p4, events[4..], clock[4..]);
    DeleteStepA();
    assert events[5..] == [];
  }

  // ---------------------------------------------------------------------
  // The Delete button and task texts that contain markup

  /** A click on a row's Delete button as the page is written. The label is
      filled through `li.innerHTML`, so the browser parses the task text as
      markup; `labelButtons` is the number of `<button>` elements that
      parsing yields (zero for plain text). The row's buttons in document
      order are the label's, then Delete, and `li.querySelector("button")`
      attaches the delete listener to the first of them. When that is not
      the Delete button, its click bubbles to the row's listener, which
      ignores button targets. */
  function DeleteButtonClickAsWritten(p: Page, i: nat, labelButtons: nat): (q: Page)
    requires i < |p.tasks|
    ensures labelButtons == 0 ==> q == OnDeleteClick(p, i)
    ensures labelButtons == 0 ==> !HasId(q.tasks, p.tasks[i].id)
    ensures labelButtons > 0 ==> q == p
  {
    if labelButtons == 0 then OnDeleteClick(p, i)
    else OnRowClick(p, i, DeleteButton)
  }

  /** A task whose text is `<button>x</button>` cannot be deleted with its
      Delete button: the click leaves the task in the list. */
  lemma MarkupTextBlocksDelete()
    ensures
      var p := Page([Task(1, "<button>x</button>", false)], [], Saved([Task(1, "<button>x</button>", false)]));
      HasId(DeleteButtonClickAsWritten(p, 0, 1).tasks, 1)
  {
    var p := Page([Task(1, "<button>x</button>", false)], [], Saved([Task(1, "<button>x</button>", false)]));
    assert DeleteButtonClickAsWritten(p, 0, 1).tasks[0].id == 1;
  }

  /** The same click when the label is filled as text (`textContent`), so the
      Delete button is the row's only button and carries the listener: the
      row's task is removed whatever its text. This is the behaviour `Step`
      gives a click on `DeleteButton`. */
  function DeleteButtonClickCorrected(p: Page, i: nat): (q: Page)
    requires i < |p.tasks|
    ensures !HasId(q.tasks, p.tasks[i].id)
    ensures q == Step(p, RowClick(i, DeleteButton), 0)
  {
    DeleteButtonClickAsWritten(p, i, 0)
  }

  // ---------------------------------------------------------------------
  // Task texts whose markup swallows the Delete button
  //
  // Parsed through `li.innerHTML`, a text such as `<script>`, `<textarea>` or
  // `<!--` turns the rest of the row's markup, Delete button included, into
  // its own content. The row then has no `<button>`, and attaching the delete
  // listener to `li.querySelector("button")` throws. The model does not parse
  // HTML: `swallowing` is the set of texts that do this, and is empty for a
  // label filled as text.

  /** The add button's click handler as written. The render that throws runs
      after the task was appended and saved, so the list and storage are as
      usual, but the field is no longer cleared. */
  function AddClickAsWritten(p: Page, now: int, swallowing: set<string>): (q: Page)
    ensures AllWhitespace(p.input) ==> q == p
    ensures !AllWhitespace(p.input) ==> q.tasks == OnAddClick(p, now).tasks && Consistent(q)
    ensures !AllWhitespace(p.input) && Trim(p.input) in swallowing ==> q.input == p.input
    ensures Trim(p.input) !in swallowing ==> q == OnAddClick(p, now)
  {
    var q := OnAddClick(p, now);
    if !AllWhitespace(p.input) && Trim(p.input) in swallowing then q.(input := p.input) else q
  }

  /** Adding the task `<script>`: it is stored, but the field keeps its
      text, where the add handler with a text label clears it. */
  lemma ScriptTextKeepsField()
    ensures
      var p := Page([], "<script>", Missing);
      && AddClickAsWritten(p, 5, {"<script>"}).input == "<script>"
      && AddClickAsWritten(p, 5, {"<script>"}).tasks == [Task(5, "<script>", false)]
      && OnAddClick(p, 5).input == []
  {
    assert !IsWhitespace("<script>"[0]);
    TrimOfTrimmed("<script>");
  }

  /** The position of the first task whose text is in `swallowing`, or the
      length of the list if there is none. */
  function FirstSwallowing(tasks: seq<Task>, swallowing: set<string>): (k: nat)
    ensures k <= |tasks|
    ensures forall j | 0 <= j < k :: tasks[j].text !in swallowing
    ensures k < |tasks| ==> tasks[k].text in swallowing
  {
    if tasks == [] || tasks[0].text in swallowing then 0
    else 1 + FirstSwallowing(tasks[1..], swallowing)
  }

  /** The DOMContentLoaded handler as written. Rendering the saved list stops
      at the first task whose text swallows its Delete button; as the add
      and keypress listeners are attached only after that, the page stalls
      for good, since no gesture it still accepts can remove that task. */
  function StartAsWritten(stored: Stored, input: string, swallowing: set<string>): (r: Startup)
    ensures r.Aborted? <==> stored.Unparsable?
    ensures r.Stalled? <==>
      stored.Saved? && exists j | 0 <= j < |stored.tasks| :: stored.tasks[j].text in swallowing
    ensures r.Stalled? ==>
      && r.page == Page(stored.tasks, input, stored)
      && r.shown < |stored.tasks|
      && stored.tasks[r.shown].text in swallowing
      && forall j | 0 <= j < r.shown :: stored.tasks[j].text !in swallowing
    ensures swallowing == {} ==> r == Start(stored, input)
  {
    match Start(stored, input)
    case Running(page) =>
      var k := FirstSwallowing(page.tasks, swallowing);
      if k < |page.tasks| then Stalled(page, k) else Running(page)
    case r => r
  }

  /** A saved task `<script>` stalls every later start-up, where start-up
      with a text label runs with the saved list. */
  lemma StoredScriptTextStallsStartup()
    ensures
      var stored := Saved([Task(1, "<script>", false)]);
      && StartAsWritten(stored, [], {"<script>"}) == Stalled(Page([Task(1, "<script>", false)], [], stored), 0)
      && Start(stored, []).Running?
  {
  }
}
